=== FILE: README.md ===
# sgvAuthDriver: identity sync and repository reconciliation

A Dafny model of the authentication driver `sgvAuthDriver` of a Pydio
installation. The driver checks logins against the remote membership directory
of Scouts en Gidsen Vlaanderen ("groepsadmin"). After a successful login it does
two things:

- it synchronises the user's profile and ACL with the user's remote group
  memberships;
- it keeps one storage repository per group, mounted at `/mnt/<group id>`.

The model is functional. A user is one immutable record. It is passed to the
sync and returned updated. The repository store is a map from repository id
to an immutable record, held together with the admin user's ACL. Each
operation is a pure function from the old state to the new state. Every operation that may call the directory returns a
`Run`: its outcome (`Ok` or `Failed(DirectoryUnavailable)`) plus the list of
remote calls it made.

Modules (one per component, each in its own file):

| file | module | models |
|---|---|---|
| outcomes.dfy | `Outcomes` | `Option`, `Result`, remote `Call`, `Run` |
| ascii.dfy | `Ascii` | PHP `strtolower`, `strtoupper`, `ucwords` on ASCII |
| patterns.dfy | `Patterns` | the regexes `^[A-Z][0-9]{4}[A-Z]` and `^[0-9a-f]{32}$` |
| group_names.dfy | `GroupNames` | the group-name normaliser |
| email_alias.dfy | `EmailAlias` | the `EMAIL` option rewriter |
| directory.dfy | `Directory` | the remote directory as an oracle |
| credentials.dfy | `Credentials` | `userExists`, `checkPassword`, `getGroepsadminId` |
| repositories.dfy | `Repositories` | `updateRepo` |
| profile_sync.dfy | `ProfileSync` | `updateUserObject`, `isOutdated` |

Collaborators become parameters:

- the SOAP directory is a `Directory`, a pair of total functions `login` and `lookup`;
- `sha1` is a function held in `Config`, next to the optional `ADMIN_PW_SHA1`;
- `is_dir` is `dirExists: string -> bool`;
- `time()` is `now: int`.

## Behaviour worth knowing

The code is followed in each of these cases:

- **Admin sync.** The `admin` branch of `updateUserObject` only sets the display
  name and email. It does not grant `ajxp_home`, does not touch the ACL, and does
  not refresh the session.
- **Which path `updateRepo` checks.** `is_dir` (line 182) checks the path a stored
  repository already had. Only later (line 198) is the path rewritten to
  `/mnt/<id>`. When every stored repository with a group id is already at its
  derived path, `enabled` equals `dirExists("/mnt/" + id)` for a group id.
  Repositories with other ids, such as `ajxp_home`, may sit anywhere. `StoredPathDecidesFirstPass` shows a
  repository at another path whose first pass and second pass disagree.
- **Empty login id.** `checkPassword` accepts any string from the directory's
  `login` call, including the empty string.
- **Hex-id test and newlines.** PCRE's `$` also matches before a final newline.
  So 32 lower-case hex digits followed by `"\n"` pass the hex-id test. Such a
  login is returned unchanged, without a lookup.
- **Dead `_gouw_` alternative.** The email regex's `_gouw_` alternative never
  matches on the sync path. The name normaliser has already replaced every `_`
  with a space (`GouwTokenUnreachableFromSync`).
- **`isOutdated` is unused.** The private helper `isOutdated` (lines 208-210) is
  never called; line 95 inlines the same test. The model defines the test once,
  as `ProfileSync.IsOutdated`, and the contract of `UpdateUserObject` states it.

## Model

All source paths are in `core/src/plugins/auth.sgv/`.

| member | source | states |
|---|---|---|
| Credentials.UserExists | core/src/plugins/auth.sgv/SgvAuthDriver.php:35-39 | the only login reported as not existing is the literal `admin` |
| Credentials.CheckPassword | core/src/plugins/auth.sgv/SgvAuthDriver.php:51-65 | admin-hash bypass gives true with no remote call; login `admin` otherwise gives no value and no call; any other login makes exactly one login call, fails iff the call faults, and answers whether the reply is a string |
| Credentials.AcceptedIff | core/src/plugins/auth.sgv/SgvAuthDriver.php:55-63 | credentials are accepted iff the hash matches or (login is not `admin` and the directory returned a string) |
| Credentials.BypassAcceptsAnyLogin | core/src/plugins/auth.sgv/SgvAuthDriver.php:55-56 | when the hash matches, every login is accepted |
| Credentials.RemoteLoginOnlyForClaimedUsers | core/src/plugins/auth.sgv/SgvAuthDriver.php:55-59 | the directory is consulted iff there is no bypass and `userExists` claims the login |
| Credentials.ResolveId | core/src/plugins/auth.sgv/SgvAuthDriver.php:67-80 | `admin` and hex ids come back unchanged with no call; anything else makes one lookup and yields the profile's id, or fails iff the lookup faults |
| Credentials.ResolveIdLocalIff | core/src/plugins/auth.sgv/SgvAuthDriver.php:69-70 | no remote call is made exactly when the login is `admin` or passes the hex-id test, and then the login is the answer |
| Credentials.ResolveIdIdempotent | core/src/plugins/auth.sgv/SgvAuthDriver.php:69-75 | resolving an id that came back as `admin` or in hex form returns it again with no call, whatever the directory says |
| Credentials.ResolveIdKeepsTrailingNewline | core/src/plugins/auth.sgv/SgvAuthDriver.php:69-70 | a hex id with a trailing newline is returned verbatim, unresolved |
| Patterns.IsGroupIdIff | core/src/plugins/auth.sgv/SgvAuthDriver.php:117 | the group-id test holds iff the first six characters are upper letter, four digits, upper letter |
| Patterns.IsGroupIdExtends | core/src/plugins/auth.sgv/SgvAuthDriver.php:117 | the test is prefix-only: any suffix keeps a passing id passing |
| Patterns.GroupIdExamples | core/src/plugins/auth.sgv/SgvAuthDriver.php:117 | `Z9999Z` passes; `zz99zz`, `ajxp_home` and `A123B` fail |
| Patterns.IsHexIdIff | core/src/plugins/auth.sgv/SgvAuthDriver.php:69 | the hex-id test holds iff the first 32 characters are lower-case hex, followed by nothing or by exactly one newline |
| Patterns.HexIdAcceptsTrailingNewline | core/src/plugins/auth.sgv/SgvAuthDriver.php:69 | one trailing newline is accepted, two are not |
| Ascii.UcWordsAt | core/src/plugins/auth.sgv/SgvAuthDriver.php:120 | `ucwords` upper-cases exactly the characters that start a word, and keeps every other character |
| GroupNames.NormaliseName | core/src/plugins/auth.sgv/SgvAuthDriver.php:118-121 | the normalised name has the same length and no underscore |
| GroupNames.NormaliseOnlyChangesCase | core/src/plugins/auth.sgv/SgvAuthDriver.php:118-121 | up to case, the result is the name with `_` replaced by spaces; a mixed-case name keeps its case exactly |
| GroupNames.NormaliseUniformIsTitleCase | core/src/plugins/auth.sgv/SgvAuthDriver.php:119-120 | a name written in one case comes out upper-case at word starts and lower-case elsewhere |
| GroupNames.NormaliseIdempotent | core/src/plugins/auth.sgv/SgvAuthDriver.php:118-121 | normalising twice equals normalising once |
| GroupNames.NormaliseExamples | core/src/plugins/auth.sgv/SgvAuthDriver.php:118-121 | `SCOUTS_GENT` and `scouts_gent` become `Scouts Gent`; `ScoutS_Gent` becomes `ScoutS Gent` |
| EmailAlias.TokenLength | core/src/plugins/auth.sgv/SgvAuthDriver.php:194 | one repetition of the alternation matches `_gouw_` (6 characters), else a single punctuation character (1), else nothing (0) |
| EmailAlias.RunLength | core/src/plugins/auth.sgv/SgvAuthDriver.php:194 | the greedy `(...)+` match: its first `n` characters are whole tokens one after another, it is non-empty iff a token starts there, and no token follows it |
| EmailAlias.RunLengthUnique | core/src/plugins/auth.sgv/SgvAuthDriver.php:194 | any length made of whole tokens and not followed by a token is the greedy run's length |
| EmailAlias.Squash | core/src/plugins/auth.sgv/SgvAuthDriver.php:194 | the rewritten title is no longer than the title and contains none of the punctuation characters |
| EmailAlias.SquashFirstMatch | core/src/plugins/auth.sgv/SgvAuthDriver.php:194 | at the leftmost match, the text before it is copied, the whole maximal run becomes one `_`, and the rest is rewritten the same way; with `SquashIdentityIff` this fixes the result on every input |
| EmailAlias.SquashMatchFreePrefix | core/src/plugins/auth.sgv/SgvAuthDriver.php:194 | a prefix at none of whose positions a match starts is copied unchanged, including a `_` that does not begin `_gouw_` |
| EmailAlias.Alias | core/src/plugins/auth.sgv/SgvAuthDriver.php:194 | the `EMAIL` value ends with `@scoutsengidsenvlaanderen.org`; before it, one character for each character of the rewritten title, one for the `_` and one for each character of the id |
| EmailAlias.SquashIdentityIff | core/src/plugins/auth.sgv/SgvAuthDriver.php:194 | the rewrite leaves a title unchanged iff no token of the pattern starts anywhere in it |
| EmailAlias.AliasShape | core/src/plugins/auth.sgv/SgvAuthDriver.php:194 | the alias ends with `@scoutsengidsenvlaanderen.org`; its local part has no upper-case letter; the part from the title has no punctuation |
| EmailAlias.AliasOfPlainTitle | core/src/plugins/auth.sgv/SgvAuthDriver.php:194 | for a title the pattern does not touch, the alias is lower(title) + `_` + lower(id) at the domain |
| ProfileSync.GouwTokenUnreachableFromSync | core/src/plugins/auth.sgv/SgvAuthDriver.php:118-122 | no `_gouw_` token occurs anywhere in a normalised group name |
| EmailAlias.AliasExample | core/src/plugins/auth.sgv/SgvAuthDriver.php:194 | `Scouts Gent` with id `X1234Y` gives `scouts_gent_x1234y@scoutsengidsenvlaanderen.org` |
| Repositories.MountPath | core/src/plugins/auth.sgv/SgvAuthDriver.php:152 | the storage path of group `id` is `/mnt/` followed by the id, character for character |
| Repositories.DisplayTitle | core/src/plugins/auth.sgv/SgvAuthDriver.php:186-191 | the display is the title when the directory exists, and the marker `[path not found] ` followed by the title otherwise |
| Repositories.NewRepo | core/src/plugins/auth.sgv/SgvAuthDriver.php:147-172 | a new record has id, uuid and slug equal to the group id; driver `fs`; path `/mnt/<id>` in both fields; creation, template and inheritance flags off; default META_SOURCES |
| Repositories.UpdateRepo | core/src/plugins/auth.sgv/SgvAuthDriver.php:138-206 | after the call: the record is stored and nothing else in the store changes; path and `PATH` are `/mnt/<id>`; returned `enabled` equals stored `enabled`, which is the existence of the previous path (or of `/mnt/<id>` for a new repo); display is marked iff disabled; `EMAIL` is the alias; the admin gets `r` only on creation |
| Repositories.UpdateRepoOtherFields | core/src/plugins/auth.sgv/SgvAuthDriver.php:144-180 | fields that are not re-derived come from the new-repository template on creation; otherwise they are kept |
| Repositories.UpdateRepoKeepsGroupReposMounted | core/src/plugins/auth.sgv/SgvAuthDriver.php:182-199 | if every group repository is at its derived path, this stays true after the call, and `enabled` for a group id is the existence of `/mnt/<id>` |
| Repositories.AlreadyReconciled | core/src/plugins/auth.sgv/SgvAuthDriver.php:182-205 | a store already holding the reconciled record is returned unchanged, and so is its `enabled` |
| Repositories.UpdateRepoIdempotent | core/src/plugins/auth.sgv/SgvAuthDriver.php:182-205 | with a derived or absent stored path, a second call with the same title and filesystem changes nothing |
| Repositories.UpdateRepoSettles | core/src/plugins/auth.sgv/SgvAuthDriver.php:182-205 | from any store, the second call already reaches the fixed point |
| Repositories.StoredPathDecidesFirstPass | core/src/plugins/auth.sgv/SgvAuthDriver.php:182-198 | a repository stored at another, existing path is enabled on the first pass and disabled on the second when `/mnt/<id>` is missing |
| Repositories.DisplayHasAtMostOneMarker | core/src/plugins/auth.sgv/SgvAuthDriver.php:186-191 | the display is the title or one marker plus the title, whatever it was before |
| ProfileSync.IsOutdated | core/src/plugins/auth.sgv/SgvAuthDriver.php:208-210 | a profile is stale iff strictly more than 300 seconds have passed since `last_update` |
| ProfileSync.StalenessBoundary | core/src/plugins/auth.sgv/SgvAuthDriver.php:95 | a profile synced at `t` is still fresh at `t + 300`, stale at `t + 301`, and once stale it stays stale |
| ProfileSync.LastUpdate | core/src/plugins/auth.sgv/SgvAuthDriver.php:94 | `last_update` defaults to 0 when never written |
| ProfileSync.RightFor | core/src/plugins/auth.sgv/SgvAuthDriver.php:124 | the right is `rw` iff the membership has management rights |
| ProfileSync.ReconcileGroups | core/src/plugins/auth.sgv/SgvAuthDriver.php:114-129 | repository ids after the loop = ids before ∪ passing membership ids; new ACL entries only for passing ids |
| ProfileSync.ReconcileGroupsKeepsOtherRepos | core/src/plugins/auth.sgv/SgvAuthDriver.php:116-127 | repositories that no passing membership names are untouched: failing groups never reach reconciliation |
| ProfileSync.ReconcileGroupsKeepsOtherGrants | core/src/plugins/auth.sgv/SgvAuthDriver.php:116-127 | ACL entries for ids no passing membership names are kept |
| ProfileSync.ReconcileGroupsAdminGrants | core/src/plugins/auth.sgv/SgvAuthDriver.php:174-177 | the admin ACL gains `r` for exactly the repositories the loop creates, and nothing else |
| ProfileSync.ReconcileGroupsKeepsGroupReposMounted | core/src/plugins/auth.sgv/SgvAuthDriver.php:114-129 | the loop keeps every group repository at its derived path |
| ProfileSync.ReconcileGroupsGrants | core/src/plugins/auth.sgv/SgvAuthDriver.php:114-129 | when every group repository is at its derived path, the loop overlays exactly the reference grants `Granted` on its starting ACL |
| ProfileSync.ReconcileGroupsRecordAt | core/src/plugins/auth.sgv/SgvAuthDriver.php:116-122 | after the loop, the repository of a passing id is at `/mnt/<id>` in both path fields, with `EMAIL` the alias of the normalised name of the last membership carrying that id, and the display title matching its `enabled` flag |
| ProfileSync.ReconcileGroupsEnabled | core/src/plugins/auth.sgv/SgvAuthDriver.php:122 | when every group repository is at its derived path, each repository the loop reconciles is enabled iff its `/mnt/<id>` directory exists |
| ProfileSync.GrantedKeys | core/src/plugins/auth.sgv/SgvAuthDriver.php:117-126 | an id is granted iff some membership with that id passes the test and its `/mnt/<id>` directory exists |
| ProfileSync.GrantedLastWins | core/src/plugins/auth.sgv/SgvAuthDriver.php:116-126 | a granted id carries the right of the last granting membership with that id |
| ProfileSync.HomeIsNoGroup | core/src/plugins/auth.sgv/SgvAuthDriver.php:117 | `ajxp_home` never passes the group-id test, so no membership can override the home grant |
| ProfileSync.UpdateUserObject | core/src/plugins/auth.sgv/SgvAuthDriver.php:82-136 | remote fetch iff not admin and `last_update + 300 < now`, failing iff the lookup faults; admin: fixed name and email, nothing else changes, no session refresh; fresh: only `ajxp_home := rw`; stale: name `voornaam naam`, email, `last_update = now`, ACL keys within home ∪ passing ids, repositories for every passing id; every non-admin success has `ajxp_home = rw` and refreshes the session; what a stale sync leaves alone is stated by `StaleSyncFrame` |
| ProfileSync.StaleSyncRebuildsAcl | core/src/plugins/auth.sgv/SgvAuthDriver.php:106-132 | when every group repository is at its derived path, a stale sync replaces the ACL by exactly `Granted(memberships)` plus `ajxp_home: rw`, dropping grants for memberships that went away |
| ProfileSync.StaleSyncReconcilesRepos | core/src/plugins/auth.sgv/SgvAuthDriver.php:114-129 | a stale sync reconciles the repository of every passing id with the normalised name of the last membership carrying it; when every group repository is at its derived path, each one is enabled iff its directory exists |
| ProfileSync.StaleSyncFrame | core/src/plugins/auth.sgv/SgvAuthDriver.php:114-129 | a stale sync leaves every repository that no passing membership names exactly as it was, and the admin ACL gains `r` for exactly the group ids that had no repository before, nothing else |
| ProfileSync.SyncStableWithinWindow | core/src/plugins/auth.sgv/SgvAuthDriver.php:94-134 | a second sync at the same instant makes no call and returns the user and store unchanged |

## Left out

- SOAP client construction, the WSDL constant and `init`: the directory is an oracle parameter.
- `usersEditable` and `passwordsEditable` are not modelled: they are constant `false` flags with no logic.
- Logger calls: they have no effect on state.
- `parent::updateUserObject`: the base class is not part of this model.
- `save("superuser")`: the updated records are returned instead of persisted.
- `AuthService::updateSessionUser`: it is the `sessionRefreshed` flag.
- The internals of the repository and user services: plain maps stand in for them.
- Error messages: a remote error aborts with `Failed(DirectoryUnavailable)`. Whether the namespaced `catch (Exception ...)` clause really catches SOAP faults is not modelled; either way the operation aborts.
- The `$changed` bookkeeping (lines 183-186, 197): line 197 forces it to true, so the record is always replaced.
- The contents of `META_SOURCES`: an opaque default set only on creation.
- `TextEncoder::toStorageEncoding`: taken as the identity.
- `sha1`: left uninterpreted.
- The two `time()` reads (lines 95 and 111): one instant `now`.
- The directory's two `lidGegevensV3` calls use different flag arguments: both are the one `lookup` function.
- A SOAP reply with a single group decoded as a bare object rather than a list is not modelled: memberships are always a sequence, or absent.
- The client-side menu script `core/src/plugins/gui.ajax/res/js/sgv.js`: it only toggles the UI.
- ProfileSync.ReconcileGroupsGrants: states the exact ACL only when every stored repository with a group id is at `/mnt/<id>`. Other repositories, such as `ajxp_home`, are unconstrained. The reason: a group repository stored elsewhere is judged by its old path on the first pass (see `StoredPathDecidesFirstPass`).
- ProfileSync.StaleSyncRebuildsAcl: same precondition, same reason; without it `UpdateUserObject` still bounds the ACL keys by home ∪ passing group ids.

=== FILE: ascii.dfy ===
/** ASCII case mapping as PHP's `strtolower`, `strtoupper` and `ucwords` do
    it: only the letters A-Z and a-z change case, every other character is
    left alone. */
module Ascii {

  predicate IsUpper(c: char) { 'A' <= c <= 'Z' }

  predicate IsLower(c: char) { 'a' <= c <= 'z' }

  predicate IsDigit(c: char) { '0' <= c <= '9' }

  /** The characters `ucwords` treats as word separators by default:
      space, tab, carriage return, newline, form feed (12) and vertical tab (11). */
  predicate IsWordDelimiter(c: char) {
    c == ' ' || c == '\t' || c == '\r' || c == '\n' || c as int == 12 || c as int == 11
  }

  function ToLowerChar(c: char): (r: char)
    ensures !IsUpper(r)
    ensures IsUpper(c) ==> IsLower(r)
    ensures !IsUpper(c) ==> r == c
  {
    if IsUpper(c) then (c as int + 32) as char else c
  }

  function ToUpperChar(c: char): (r: char)
    ensures !IsLower(r)
    ensures IsLower(c) ==> IsUpper(r)
    ensures !IsLower(c) ==> r == c
  {
    if IsLower(c) then (c as int - 32) as char else c
  }

  /** PHP `strtolower`. */
  function Lower(s: string): (r: string)
    ensures |r| == |s|
    ensures forall i :: 0 <= i < |s| ==> r[i] == ToLowerChar(s[i])
  {
    seq(|s|, i requires 0 <= i < |s| => ToLowerChar(s[i]))
  }

  /** PHP `strtoupper`. */
  function Upper(s: string): (r: string)
    ensures |r| == |s|
    ensures forall i :: 0 <= i < |s| ==> r[i] == ToUpperChar(s[i])
  {
    seq(|s|, i requires 0 <= i < |s| => ToUpperChar(s[i]))
  }

  /** `ucwords` on the rest of a string; `atWordStart` says whether the
      character before `s` was a delimiter (or `s` starts the string). */
  function UcWordsFrom(s: string, atWordStart: bool): (r: string)
    ensures |r| == |s|
    decreases |s|
  {
    if s == [] then []
    else [if atWordStart then ToUpperChar(s[0]) else s[0]] + UcWordsFrom(s[1..], IsWordDelimiter(s[0]))
  }

  /** PHP `ucwords` with its default delimiters. */
  function UcWords(s: string): (r: string)
  {
    UcWordsFrom(s, true)
  }

  /** True when character `i` of `s` begins a word for `ucwords`. */
  predicate StartsWord(s: string, i: int)
    requires 0 <= i < |s|
  {
    i == 0 || IsWordDelimiter(s[i - 1])
  }

  /** Positional reading of the recursive `ucwords`: the first character of
      each word is upper-cased and every other character is kept. */
  lemma {:induction false} UcWordsFromAt(s: string, atWordStart: bool, i: int)
    requires 0 <= i < |s|
    ensures UcWordsFrom(s, atWordStart)[i]
         == (if (if i == 0 then atWordStart else IsWordDelimiter(s[i - 1])) then ToUpperChar(s[i]) else s[i])
    decreases |s|
  {
    if i > 0 {
      UcWordsFromAt(s[1..], IsWordDelimiter(s[0]), i - 1);
      assert s[1..][i - 1] == s[i];
      if i > 1 {
        assert s[1..][i - 2] == s[i - 1];
      }
    }
  }

  lemma UcWordsAt(s: string, i: int)
    requires 0 <= i < |s|
    ensures UcWords(s)[i] == (if StartsWord(s, i) then ToUpperChar(s[i]) else s[i])
  {
    UcWordsFromAt(s, true, i);
  }

  /** `strtolower` undoes what `ucwords` does to a lower-case string. */
  lemma {:induction false} LowerOfUcWordsOfLower(s: string)
    ensures Lower(UcWords(Lower(s))) == Lower(s)
  {
    var t := Lower(s);
    var u := UcWords(t);
    forall i | 0 <= i < |s|
      ensures Lower(u)[i] == Lower(s)[i]
    {
      UcWordsAt(t, i);
    }
  }

  /** `strtolower` works character by character, so it distributes over
      concatenation. */
  lemma LowerConcat(a: string, b: string)
    ensures Lower(a + b) == Lower(a) + Lower(b)
  {
  }
}

=== FILE: credentials.dfy ===
/** Credential checks of the driver (SgvAuthDriver.php, lines 35-80): the
    existence answer, the password decision and the remote-id resolution. */
module Credentials {
  import opened Outcomes
  import opened Directory
  import opened Patterns

  /** The local administrator's login, handled by another driver. */
  const AdminLogin: string := "admin"

  /** Configuration: the `ADMIN_PW_SHA1` server variable (`None` when unset)
      and the hash function `sha1`, left uninterpreted. */
  datatype Config = Config(adminPasswordHash: Option<string>, sha1: string -> string)

  /** The administrator-hash bypass applies to this password. */
  predicate Bypass(cfg: Config, password: string) {
    cfg.adminPasswordHash == Some(cfg.sha1(password))
  }

  /** `userExists`: every login except the literal "admin" is claimed to
      exist, so that a login page never reveals which members are real. */
  function UserExists(login: string): (claimed: bool)
    ensures !claimed <==> login == AdminLogin
  {
    login != AdminLogin
  }

  /** `checkPassword`. `Some(b)` is a boolean answer; `None` is the path on
      which the source returns no value at all. */
  function CheckPassword(cfg: Config, dir: Directory, login: string, password: string): (r: Run<Option<bool>>)
    ensures Bypass(cfg, password) ==> r == Run(Ok(Some(true)), [])
    ensures !Bypass(cfg, password) && login == AdminLogin ==> r == Run(Ok(None), [])
    ensures !Bypass(cfg, password) && login != AdminLogin ==>
      && r.calls == [LoginCall(login)]
      && (r.outcome.Failed? <==> dir.login(login, password).LoginFault?)
      && (r.outcome.Ok? ==> r.outcome.value == Some(dir.login(login, password).LoginId?))
  {
    if Bypass(cfg, password) then Run(Ok(Some(true)), [])
    else if login != AdminLogin then
      match dir.login(login, password)
      case LoginFault => Run(Failed(DirectoryUnavailable), [LoginCall(login)])
      case LoginId(_) => Run(Ok(Some(true)), [LoginCall(login)])
      case LoginNonString => Run(Ok(Some(false)), [LoginCall(login)])
    else Run(Ok(None), [])
  }

  /** The driver accepts the credentials. */
  predicate Accepted(r: Run<Option<bool>>) {
    r.outcome == Ok(Some(true))
  }

  /** Acceptance in one sentence: the administrator hash matches, or the
      login is not "admin" and the directory answered with a string. */
  lemma AcceptedIff(cfg: Config, dir: Directory, login: string, password: string)
    ensures Accepted(CheckPassword(cfg, dir, login, password))
        <==> Bypass(cfg, password) || (login != AdminLogin && dir.login(login, password).LoginId?)
  {
  }

  /** The bypass accepts every login, "admin" and unknown logins included. */
  lemma BypassAcceptsAnyLogin(cfg: Config, dir: Directory, password: string)
    requires Bypass(cfg, password)
    ensures forall login :: Accepted(CheckPassword(cfg, dir, login, password))
  {
  }

  /** The password check consults the directory exactly for the logins
      `userExists` claims, and only when the bypass does not apply. */
  lemma RemoteLoginOnlyForClaimedUsers(cfg: Config, dir: Directory, login: string, password: string)
    ensures CheckPassword(cfg, dir, login, password).calls != []
        <==> !Bypass(cfg, password) && UserExists(login)
  {
  }

  /** `getGroepsadminId`: "admin" and strings passing the hex-id test are
      returned as they are; anything else is looked up and replaced by the
      id of the profile found. */
  function ResolveId(dir: Directory, login: string): (r: Run<string>)
    ensures login == AdminLogin || IsHexId(login) ==> r == Run(Ok(login), [])
    ensures login != AdminLogin && !IsHexId(login) ==>
      && r.calls == [LookupCall(login)]
      && (r.outcome.Failed? <==> dir.lookup(login).LookupFault?)
      && (r.outcome.Ok? ==> r.outcome.value == dir.lookup(login).profile.id)
  {
    if login == AdminLogin || IsHexId(login) then Run(Ok(login), [])
    else
      match dir.lookup(login)
      case LookupFault => Run(Failed(DirectoryUnavailable), [LookupCall(login)])
      case Found(p) => Run(Ok(p.id), [LookupCall(login)])
  }

  /** Resolution makes no remote call exactly on its fixed points. */
  lemma ResolveIdLocalIff(dir: Directory, login: string)
    ensures ResolveId(dir, login).calls == [] <==> login == AdminLogin || IsHexId(login)
    ensures ResolveId(dir, login).calls == [] ==> ResolveId(dir, login).outcome == Ok(login)
  {
  }

  /** Resolving an id that came back as `admin` or in hex form again is a
      no-op, whatever the directory would answer next time. */
  lemma ResolveIdIdempotent(dir: Directory, dir': Directory, login: string)
    ensures var r := ResolveId(dir, login);
      r.outcome.Ok? && (r.outcome.value == AdminLogin || IsHexId(r.outcome.value)) ==>
        ResolveId(dir', r.outcome.value) == Run(Ok(r.outcome.value), [])
  {
  }

  /** 32 lower-case hex digits with a trailing newline are taken as an
      already-resolved id and never sent to the directory. */
  lemma ResolveIdKeepsTrailingNewline(dir: Directory, id: string)
    requires IsHexId(id) && |id| == 32
    ensures ResolveId(dir, id + "\n") == Run(Ok(id + "\n"), [])
  {
    HexIdAcceptsTrailingNewline(id);
  }
}

=== FILE: directory.dfy ===
/** The remote membership directory ("groepsadmin") as the driver sees it:
    an oracle answering a login attempt and a profile lookup. The SOAP
    transport is not part of this model. */
module Directory {
  import opened Outcomes

  /** One group membership from a profile. `hasManageRight` records whether
      the `beheersrecht` field is set. */
  datatype Group = Group(id: string, name: string, hasManageRight: bool)

  /** A member profile. `groups` is `None` when the response carries no
      group list at all (`gebruikersgroep` is null). */
  datatype Profile = Profile(
    id: string,
    firstName: string,      // voornaam
    lastName: string,       // naam
    email: string,          // emailadres
    groups: Option<seq<Group>>)

  /** The answer to `login(login, password)`: a string id, any value that is
      not a string, or a remote error. */
  datatype LoginReply = LoginId(id: string) | LoginNonString | LoginFault

  /** The answer to `lidGegevensV3(key, ...)`. */
  datatype LookupReply = Found(profile: Profile) | LookupFault

  /** The directory as a pair of total functions: the answer it would give
      to each question, fixed for the duration of one operation. */
  datatype Directory = Directory(
    login: (string, string) -> LoginReply,
    lookup: string -> LookupReply)

  /** The group list of a profile, empty when the response has none. */
  function GroupsOf(p: Profile): (gs: seq<Group>)
    ensures p.groups.None? ==> gs == []
    ensures p.groups.Some? ==> gs == p.groups.value
  {
    p.groups.GetOr([])
  }
}

=== FILE: email_alias.dfy ===
/** The contact address stored on every repository (SgvAuthDriver.php,
    line 194): the title with each maximal run of `_gouw_` tokens and
    punctuation characters collapsed to one `_`, then `_` and the group id,
    lower-cased, at a fixed domain. */
module EmailAlias {
  import opened Ascii

  const AliasDomain: string := "@scoutsengidsenvlaanderen.org"

  /** The first alternative of the pattern. */
  const GouwToken: string := "_gouw_"

  /** The bracketed class of the pattern:
      $ # @ ~ ! & * ( ) [ ] ; . , : ? ^ space backtick ' \ / */
  const SeparatorChars: set<char> :=
    {'$', '#', '@', '~', '!', '&', '*', '(', ')', '[', ']', ';', '.', ',', ':', '?', '^', ' ', '`', '\'', '\\', '/'}

  predicate IsSeparatorChar(c: char) {
    c in SeparatorChars
  }

  /** Length of one repetition of `((_gouw_)|[...])` matched at the start of
      `s`, or 0 when neither alternative matches there. The alternatives
      cannot both match: one starts with `_`, the other excludes it. */
  function TokenLength(s: string): (n: nat)
    ensures n <= |s|
    ensures n == 0 || n == 1 || n == 6
    ensures n == 6 <==> |s| >= 6 && s[..6] == GouwToken
    ensures n == 1 <==> |s| > 0 && IsSeparatorChar(s[0]) && !(|s| >= 6 && s[..6] == GouwToken)
  {
    if |s| >= 6 && s[..6] == GouwToken then 6
    else if |s| > 0 && IsSeparatorChar(s[0]) then 1
    else 0
  }

  /** The first `n` characters of `s` split into whole tokens, one after
      the other. */
  predicate TokensUpTo(s: string, n: nat)
    decreases n
  {
    n == 0 || (0 < TokenLength(s) <= n && TokensUpTo(s[TokenLength(s)..], n - TokenLength(s)))
  }

  /** Length of the greedy `(...)+` match at the start of `s` (0 when there
      is none): a sequence of whole tokens that no further token follows. */
  function RunLength(s: string): (n: nat)
    ensures n <= |s|
    ensures n > 0 <==> TokenLength(s) > 0
    ensures TokensUpTo(s, n)
    ensures TokenLength(s[n..]) == 0
    decreases |s|
  {
    var t := TokenLength(s);
    if t == 0 then 0 else t + RunLength(s[t..])
  }

  /** The greedy run is the only length that is made of whole tokens and
      not followed by another token. */
  lemma {:induction false} RunLengthUnique(s: string, n: nat)
    requires n <= |s| && TokensUpTo(s, n) && TokenLength(s[n..]) == 0
    ensures n == RunLength(s)
    decreases n
  {
    if n == 0 {
      assert s[0..] == s;
    } else {
      var t := TokenLength(s);
      assert s[t..][n - t..] == s[n..];
      RunLengthUnique(s[t..], n - t);
    }
  }

  /** `preg_replace('/((_gouw_)|[...])+/', '_', s)`: scan left to right,
      replacing each maximal run by a single underscore. */
  function Squash(s: string): (r: string)
    ensures |r| <= |s|
    ensures forall i :: 0 <= i < |r| ==> !IsSeparatorChar(r[i])
    decreases |s|
  {
    if s == [] then []
    else if RunLength(s) > 0 then "_" + Squash(s[RunLength(s)..])
    else [s[0]] + Squash(s[1..])
  }

  /** The `EMAIL` option of repository `id` titled `title`. */
  function Alias(title: string, id: string): (r: string)
    ensures |r| == |Squash(title)| + 1 + |id| + |AliasDomain|
    ensures r[|r| - |AliasDomain|..] == AliasDomain
  {
    Lower(Squash(title) + "_" + id) + AliasDomain
  }

  /** The address is at the fixed domain, and its local part has no
      upper-case letter and none of the punctuation characters of the title. */
  lemma AliasShape(title: string, id: string)
    ensures var r := Alias(title, id);
      && r[|r| - |AliasDomain|..] == AliasDomain
      && (forall i :: 0 <= i < |r| - |AliasDomain| ==> !IsUpper(r[i]))
      && (forall i :: 0 <= i < |Squash(title)| ==> !IsSeparatorChar(r[i]))
  {
    var r := Alias(title, id);
    var local := Lower(Squash(title) + "_" + id);
    assert r == local + AliasDomain;
    assert r[|local|..] == AliasDomain;
    forall i | 0 <= i < |Squash(title)|
      ensures !IsSeparatorChar(r[i])
    {
      assert r[i] == ToLowerChar(Squash(title)[i]);
    }
  }

  /** No pattern match starts anywhere in `s`. */
  predicate NothingToReplace(s: string) {
    forall i :: 0 <= i < |s| ==> TokenLength(s[i..]) == 0
  }

  /** The replacement leaves a string unchanged exactly when the pattern
      matches nowhere in it. */
  lemma {:induction false} SquashIdentityIff(s: string)
    ensures Squash(s) == s <==> NothingToReplace(s)
    decreases |s|
  {
    if s != [] {
      var tail := s[1..];
      assert forall i :: 0 <= i < |tail| ==> tail[i..] == s[i + 1..];
      SquashIdentityIff(tail);
      if RunLength(s) > 0 {
        assert TokenLength(s[0..]) > 0 by { assert s[0..] == s; }
        if RunLength(s) == 1 {
          assert TokenLength(s) == 1;
          assert Squash(s)[0] == '_' != s[0];
        } else {
          assert |Squash(s)| == 1 + |Squash(s[RunLength(s)..])| < |s|;
        }
      } else {
        assert TokenLength(s[0..]) == 0 by { assert s[0..] == s; }
        if NothingToReplace(s) {
          assert NothingToReplace(tail);
        }
        if Squash(s) == s {
          assert Squash(s) == [s[0]] + Squash(tail);
          assert Squash(tail) == tail;
          assert NothingToReplace(tail);
          forall i | 0 <= i < |s|
            ensures TokenLength(s[i..]) == 0
          {
            if i > 0 {
              assert TokenLength(tail[i - 1..]) == 0;
            }
          }
        }
      }
    }
  }

  /** The leftmost match decides the result: when a match starts at the
      beginning of `v` and at no position of `u`, the prefix `u` is copied,
      the whole maximal run starting there becomes one `_`, and the rest of
      the string is rewritten the same way. With `SquashIdentityIff`
      (no match anywhere) this pins down the rewrite on every input. */
  lemma SquashFirstMatch(u: string, v: string)
    requires forall k :: 0 <= k < |u| ==> TokenLength((u + v)[k..]) == 0
    requires TokenLength(v) > 0
    ensures Squash(u + v) == u + "_" + Squash(v[RunLength(v)..])
  {
    forall k | 0 <= k < |u|
      ensures RunLength((u + v)[k..]) == 0
    {
    }
    SquashMatchFreePrefix(u, v);
    SquashAtMatch(v);
  }

  /** A prefix at none of whose positions a match starts is copied
      unchanged. */
  lemma {:induction false} SquashMatchFreePrefix(u: string, v: string)
    requires forall k :: 0 <= k < |u| ==> RunLength((u + v)[k..]) == 0
    ensures Squash(u + v) == u + Squash(v)
    decreases |u|
  {
    if u == [] {
      assert u + v == v;
      assert u + Squash(v) == Squash(v);
    } else {
      var t := u[1..];
      var w := t + v;
      var sv := Squash(v);
      assert u + v == [u[0]] + w;
      assert [u[0]] + (t + sv) == u + sv;
      forall k | 0 <= k < |t|
        ensures RunLength((t + v)[k..]) == 0
      {
        assert (t + v)[k..] == (u + v)[k + 1..];
      }
      assert (u + v)[0..] == u + v;
      SquashMatchFreePrefix(t, v);
      KeepHead(u[0], w);
    }
  }

  /** A first character at which no match starts is copied. */
  lemma KeepHead(c: char, w: string)
    requires RunLength([c] + w) == 0
    ensures Squash([c] + w) == [c] + Squash(w)
  {
    var t := [c] + w;
    assert t[0] == c;
    assert t[1..] == w;
  }

  /** A string where a match starts: its run becomes one `_`. */
  lemma SquashAtMatch(s: string)
    requires TokenLength(s) > 0
    ensures Squash(s) == "_" + Squash(s[RunLength(s)..])
  {
  }

  /** A title the pattern does not touch only gets lower-cased. */
  lemma AliasOfPlainTitle(title: string, id: string)
    requires NothingToReplace(title)
    ensures Alias(title, id) == Lower(title) + "_" + Lower(id) + AliasDomain
  {
    SquashIdentityIff(title);
    LowerConcat(title + "_", id);
    LowerConcat(title, "_");
    assert Lower("_") == "_";
  }

  /** Neither alternative of the pattern can start at this character. */
  predicate IsPlainChar(c: char) {
    c != '_' && !IsSeparatorChar(c)
  }

  /** A prefix made of plain characters is copied unchanged: no match can
      start at a plain character. */
  lemma SquashPlainPrefix(u: string, v: string)
    requires forall i :: 0 <= i < |u| ==> IsPlainChar(u[i])
    ensures Squash(u + v) == u + Squash(v)
  {
    forall k | 0 <= k < |u|
      ensures RunLength((u + v)[k..]) == 0
    {
      var w := (u + v)[k..];
      assert w[0] == u[k];
      if |w| >= 6 {
        assert w[..6][0] == u[k];
      }
    }
    SquashMatchFreePrefix(u, v);
  }

  /** The group "Scouts Gent" with id X1234Y gets the address
      scouts_gent_x1234y@scoutsengidsenvlaanderen.org. */
  lemma AliasExample(title: string, id: string)
    requires title == "Scouts Gent" && id == "X1234Y"
    ensures Alias(title, id) == "scouts_gent_x1234y@scoutsengidsenvlaanderen.org"
  {
    assert Lower("Scouts_Gent" + "_" + id) == "scouts_gent_x1234y";
    assert "scouts_gent_x1234y" + AliasDomain == "scouts_gent_x1234y@scoutsengidsenvlaanderen.org";
    SquashExample(title);
  }

  /** The single space of "Scouts Gent" becomes an underscore. */
  lemma SquashExample(title: string)
    requires title == "Scouts Gent"
    ensures Squash(title) == "Scouts_Gent"
  {
    var scouts, rest := title[..6], title[6..];
    assert title == scouts + rest;
    PlainExample(scouts);
    SpaceExample(rest);
    SquashPlainPrefix(scouts, rest);
    assert scouts + "_Gent" == "Scouts_Gent";
  }

  lemma SpaceExample(s: string)
    requires s == " Gent"
    ensures Squash(s) == "_Gent"
  {
    var gent := s[1..];
    assert s == [s[0]] + gent;
    PlainExample(gent);
    SquashPlainWord(gent);
    CollapseFirst(s[0], gent);
  }

  lemma PlainExample(w: string)
    requires w == "Scouts" || w == "Gent"
    ensures forall i :: 0 <= i < |w| ==> IsPlainChar(w[i])
    ensures w != [] && w[0] != '_'
  {
  }

  /** A string of plain characters is left as it is. */
  lemma SquashPlainWord(w: string)
    requires forall i :: 0 <= i < |w| ==> IsPlainChar(w[i])
    ensures Squash(w) == w
  {
    assert w + [] == w;
    SquashPlainPrefix(w, []);
  }

  /** A lone separator character followed by no further match becomes `_`. */
  lemma CollapseFirst(c: char, s: string)
    requires IsSeparatorChar(c) && TokenLength(s) == 0
    ensures Squash([c] + s) == "_" + Squash(s)
  {
    var t := [c] + s;
    assert t[0] == c;
    assert TokenLength(t) == 1 by {
      if |t| >= 6 { assert t[..6][0] == c; }
    }
    assert t[1..] == s;
    assert RunLength(t) == 1;
  }
}

=== FILE: group_names.dfy ===
/** The display-name heuristic applied to a remote group's name before it
    becomes a repository title (SgvAuthDriver.php, lines 118-121). */
module GroupNames {
  import opened Ascii

  /** `str_replace('_', ' ', name)`. */
  function Spaced(name: string): (r: string)
    ensures |r| == |name|
    ensures forall i :: 0 <= i < |name| ==> r[i] == (if name[i] == '_' then ' ' else name[i])
  {
    seq(|name|, i requires 0 <= i < |name| => if name[i] == '_' then ' ' else name[i])
  }

  /** The name has no mixed case: it equals its own `strtoupper` or its own
      `strtolower` image (a name without letters is both). */
  predicate UniformCase(s: string) {
    s == Upper(s) || s == Lower(s)
  }

  /** Underscores become spaces; a name written all in one case is then
      title-cased (`ucwords(strtolower(..))`), a mixed-case name is kept. */
  function NormaliseName(name: string): (r: string)
    ensures |r| == |name|
    ensures forall i :: 0 <= i < |r| ==> r[i] != '_'
  {
    var n := Spaced(name);
    if UniformCase(n) then
      TitleCaseAt(n);
      UcWords(Lower(n))
    else
      n
  }

  /** Apart from underscores, normalisation only ever changes case, and a
      mixed-case name keeps its case exactly. */
  lemma NormaliseOnlyChangesCase(name: string)
    ensures Lower(NormaliseName(name)) == Lower(Spaced(name))
    ensures !UniformCase(Spaced(name)) ==> NormaliseName(name) == Spaced(name)
  {
    LowerOfUcWordsOfLower(Spaced(name));
  }

  /** Each character of `ucwords(strtolower(n))` is the lower-cased original,
      upper-cased at the start of a word. */
  lemma TitleCaseAt(n: string)
    ensures forall i :: 0 <= i < |n| ==>
      UcWords(Lower(n))[i] == (if StartsWord(n, i) then ToUpperChar(ToLowerChar(n[i])) else ToLowerChar(n[i]))
  {
    forall i | 0 <= i < |n|
      ensures UcWords(Lower(n))[i] == (if StartsWord(n, i) then ToUpperChar(ToLowerChar(n[i])) else ToLowerChar(n[i]))
    {
      UcWordsAt(Lower(n), i);
      if i > 0 {
        assert IsWordDelimiter(Lower(n)[i - 1]) <==> IsWordDelimiter(n[i - 1]);
      }
    }
  }

  /** A name written all in one case comes out title-cased: upper-case at
      the start of each word, lower-case everywhere else. */
  lemma NormaliseUniformIsTitleCase(name: string)
    requires UniformCase(Spaced(name))
    ensures forall i :: 0 <= i < |name| ==>
      NormaliseName(name)[i]
        == (if StartsWord(Spaced(name), i) then ToUpperChar(ToLowerChar(Spaced(name)[i])) else ToLowerChar(Spaced(name)[i]))
  {
    TitleCaseAt(Spaced(name));
  }

  /** Normalising a second time changes nothing. */
  lemma NormaliseIdempotent(name: string)
    ensures NormaliseName(NormaliseName(name)) == NormaliseName(name)
  {
    var n := Spaced(name);
    var r := NormaliseName(name);
    assert Spaced(r) == r;
    if UniformCase(n) && UniformCase(r) {
      LowerOfUcWordsOfLower(n);
      assert Lower(r) == Lower(n);
    }
  }

  lemma NormaliseExamples()
    ensures NormaliseName("SCOUTS_GENT") == "Scouts Gent"
    ensures NormaliseName("scouts_gent") == "Scouts Gent"
    ensures NormaliseName("ScoutS_Gent") == "ScoutS Gent"
  {
    UpperCaseExample("SCOUTS_GENT");
    LowerCaseExample("scouts_gent");
    MixedCaseExample("ScoutS_Gent");
  }

  /** An all-capitals name is title-cased. */
  lemma UpperCaseExample(name: string)
    requires name == "SCOUTS_GENT"
    ensures NormaliseName(name) == "Scouts Gent"
  {
    assert Spaced(name) == "SCOUTS GENT";
    assert Upper("SCOUTS GENT") == "SCOUTS GENT";
    assert Lower("SCOUTS GENT") == "scouts gent";
    UcWordsSample("scouts gent");
  }

  /** An all-lower-case name is title-cased. */
  lemma LowerCaseExample(name: string)
    requires name == "scouts_gent"
    ensures NormaliseName(name) == "Scouts Gent"
  {
    assert Spaced(name) == "scouts gent";
    assert Lower("scouts gent") == "scouts gent";
    UcWordsSample("scouts gent");
  }

  /** A mixed-case name keeps its case. */
  lemma MixedCaseExample(name: string)
    requires name == "ScoutS_Gent"
    ensures NormaliseName(name) == "ScoutS Gent"
  {
    assert Spaced(name) == "ScoutS Gent";
    assert Upper("ScoutS Gent")[1] != "ScoutS Gent"[1];
    assert Lower("ScoutS Gent")[0] != "ScoutS Gent"[0];
  }

  lemma UcWordsSample(s: string)
    requires s == "scouts gent"
    ensures UcWords(s) == "Scouts Gent"
  {
    forall i | 0 <= i < |s| {
      UcWordsAt(s, i);
    }
  }
}

=== FILE: outcomes.dfy ===
/** Shared result types for the authentication driver model.

  Every operation that may talk to the remote membership directory returns a
  `Run`: its outcome together with the list of remote calls it made, so that
  "no remote call happens" can be stated as `calls == []`.
 */
module Outcomes {

  /** A value the driver may find absent: a role parameter never written, a
      profile without a group list, a password check that answers nothing. */
  datatype Option<+T> = None | Some(value: T) {

    /** The value when present, else the fallback the driver reads with. */
    function GetOr(fallback: T): (r: T)
      ensures Some? ==> r == value
      ensures None? ==> r == fallback
    {
      if Some? then value else fallback
    }
  }

  /** Why an operation was aborted. The only failure the driver knows of is
      the remote directory raising an error (the message text is not modelled). */
  datatype Fault = DirectoryUnavailable

  /** The outcome of an operation: a value, or an abort with a fault. */
  datatype Result<+T> = Ok(value: T) | Failed(fault: Fault)

  /** A call made to the remote membership directory. */
  datatype Call =
    | LoginCall(login: string)    // login(login, password)
    | LookupCall(key: string)     // lidGegevensV3(key, ...)

  /** An outcome plus the remote calls made to reach it, in order. */
  datatype Run<+T> = Run(outcome: Result<T>, calls: seq<Call>)
}

=== FILE: patterns.dfy ===
/** The two regular expressions the driver tests identifiers with, written
    as anchored sequences of character classes. */
module Patterns {
  import opened Ascii

  /** The character classes the patterns use. */
  datatype CharClass = UpperLetter | DecimalDigit | LowerHexDigit

  predicate IsLowerHex(c: char) { IsDigit(c) || 'a' <= c <= 'f' }

  predicate InClass(c: char, k: CharClass) {
    match k
    case UpperLetter => IsUpper(c)
    case DecimalDigit => IsDigit(c)
    case LowerHexDigit => IsLowerHex(c)
  }

  /** True when `s` begins with one character of each class of `pattern`,
      in order (a regex anchored with `^` but not with `$`). */
  function MatchesPrefix(pattern: seq<CharClass>, s: string): bool
    decreases |pattern|
  {
    pattern == [] || (|s| > 0 && InClass(s[0], pattern[0]) && MatchesPrefix(pattern[1..], s[1..]))
  }

  function Repeat(k: CharClass, n: nat): (r: seq<CharClass>)
    ensures |r| == n
    ensures forall i :: 0 <= i < n ==> r[i] == k
  {
    seq(n, _ => k)
  }

  /** `^[A-Z][0-9]{4}[A-Z]` */
  const GroupIdPattern: seq<CharClass> := [UpperLetter] + Repeat(DecimalDigit, 4) + [UpperLetter]

  /** `^[0-9a-f]{32}` */
  const HexIdPattern: seq<CharClass> := Repeat(LowerHexDigit, 32)

  /** `preg_match('/^[A-Z][0-9]{4}[A-Z]/', id)`: only the first six characters
      are constrained, whatever follows them is accepted. */
  predicate IsGroupId(id: string) {
    MatchesPrefix(GroupIdPattern, id)
  }

  /** `preg_match('/^[0-9a-f]{32}$/', login)`. Without the `D` modifier the
      PCRE `$` also matches just before a final newline, so 32 lower-case hex
      digits followed by one "\n" are accepted too. */
  predicate IsHexId(login: string) {
    MatchesPrefix(HexIdPattern, login)
      && (|login| == 32 || (|login| == 33 && login[32] == '\n'))
  }

  /** A prefix match is the same as a pointwise class check on the first
      `|pattern|` characters. */
  lemma {:induction false} MatchesPrefixIff(pattern: seq<CharClass>, s: string)
    ensures MatchesPrefix(pattern, s)
        <==> |pattern| <= |s| && forall i :: 0 <= i < |pattern| ==> InClass(s[i], pattern[i])
    decreases |pattern|
  {
    if pattern != [] && |s| > 0 {
      MatchesPrefixIff(pattern[1..], s[1..]);
      if |pattern| <= |s| && forall i :: 0 <= i < |pattern| ==> InClass(s[i], pattern[i]) {
        forall i | 0 <= i < |pattern| - 1
          ensures InClass(s[1..][i], pattern[1..][i])
        {
          assert s[1..][i] == s[i + 1] && pattern[1..][i] == pattern[i + 1];
        }
      }
      if MatchesPrefix(pattern, s) {
        forall i | 0 <= i < |pattern|
          ensures InClass(s[i], pattern[i])
        {
          if i > 0 {
            assert InClass(s[1..][i - 1], pattern[1..][i - 1]);
          }
        }
      }
    }
  }

  /** The group-id test spelled out: an upper-case letter, four digits and an
      upper-case letter, in the first six characters. */
  lemma IsGroupIdIff(id: string)
    ensures IsGroupId(id)
        <==> |id| >= 6 && IsUpper(id[0]) && IsDigit(id[1]) && IsDigit(id[2])
             && IsDigit(id[3]) && IsDigit(id[4]) && IsUpper(id[5])
  {
    MatchesPrefixIff(GroupIdPattern, id);
    assert |GroupIdPattern| == 6;
    if |id| >= 6 && IsUpper(id[0]) && IsDigit(id[1]) && IsDigit(id[2])
       && IsDigit(id[3]) && IsDigit(id[4]) && IsUpper(id[5]) {
      forall i | 0 <= i < 6
        ensures InClass(id[i], GroupIdPattern[i])
      {
      }
    }
    if IsGroupId(id) {
      assert forall i :: 0 <= i < 6 ==> InClass(id[i], GroupIdPattern[i]);
      assert InClass(id[0], GroupIdPattern[0]) && InClass(id[5], GroupIdPattern[5]);
      assert InClass(id[1], GroupIdPattern[1]) && InClass(id[2], GroupIdPattern[2]);
      assert InClass(id[3], GroupIdPattern[3]) && InClass(id[4], GroupIdPattern[4]);
    }
  }

  /** The hex-id test spelled out, including the trailing-newline case. */
  lemma IsHexIdIff(login: string)
    ensures IsHexId(login)
        <==> (|login| == 32 || (|login| == 33 && login[32] == '\n'))
             && forall i :: 0 <= i < 32 ==> IsLowerHex(login[i])
  {
    MatchesPrefixIff(HexIdPattern, login);
  }

  /** Only the start of a group id is tested: any suffix may follow. */
  lemma IsGroupIdExtends(id: string, suffix: string)
    requires IsGroupId(id)
    ensures IsGroupId(id + suffix)
  {
    IsGroupIdIff(id);
    IsGroupIdIff(id + suffix);
  }

  lemma GroupIdExamples()
    ensures IsGroupId("Z9999Z")
    ensures IsGroupId("A1234B-extra")
    ensures !IsGroupId("zz99zz")
    ensures !IsGroupId("ajxp_home")
    ensures !IsGroupId("A123B")
  {
    IsGroupIdIff("Z9999Z");
    IsGroupIdIff("A1234B-extra");
    IsGroupIdIff("zz99zz");
    IsGroupIdIff("ajxp_home");
    IsGroupIdIff("A123B");
  }

  /** The hex-id test lets a resolved id through with one trailing newline
      still attached (the PCRE `$` rule). */
  lemma HexIdAcceptsTrailingNewline(id: string)
    requires IsHexId(id) && |id| == 32
    ensures IsHexId(id + "\n")
    ensures !IsHexId(id + "\n\n")
  {
    IsHexIdIff(id);
    IsHexIdIff(id + "\n");
    assert forall i :: 0 <= i < 32 ==> (id + "\n")[i] == id[i];
  }
}

=== FILE: profile_sync.dfy ===
/** Profile synchronisation after a successful login (`updateUserObject`,
    SgvAuthDriver.php lines 82-136, with the staleness rule of `isOutdated`,
    lines 208-210). */
module ProfileSync {
  import opened Outcomes
  import opened Directory
  import opened Patterns
  import opened Repositories
  import GroupNames
  import EmailAlias
  import Credentials

  /** The user's personal repository, always granted 'rw'. */
  const HomeRepository: string := "ajxp_home"

  const AdminDisplayName: string := "Admin"

  const AdminEmail: string := "info@scoutsengidsenvlaanderen.be"

  /** Seconds during which a synchronised profile is considered fresh. */
  const StalenessWindow: int := 300

  /** The parts of a user's personal role that the driver reads or writes:
      the `USER_DISPLAY_NAME`, `email` and `last_update` parameters of
      `core.conf`, and the ACL. */
  datatype User = User(
    id: string,
    displayName: Option<string>,
    email: Option<string>,
    lastUpdate: Option<int>,
    acl: Acl)

  /** `last_update`, 0 when it was never written. */
  function LastUpdate(u: User): (t: int)
    ensures u.lastUpdate.Some? ==> t == u.lastUpdate.value
    ensures u.lastUpdate.None? ==> t == 0
  {
    u.lastUpdate.GetOr(0)
  }

  /** `isOutdated`, and the same test written inline in `updateUserObject`:
      the profile was synchronised more than the window ago. */
  function IsOutdated(timestamp: int, now: int): (outdated: bool)
    ensures outdated <==> now - timestamp > StalenessWindow
  {
    timestamp + StalenessWindow < now
  }

  /** A profile synchronised at `timestamp` stays fresh up to and including
      `timestamp + 300`, is stale one second later, and once stale stays
      stale. */
  lemma StalenessBoundary(timestamp: int, now: int, later: int)
    ensures !IsOutdated(timestamp, timestamp + StalenessWindow)
    ensures IsOutdated(timestamp, timestamp + StalenessWindow + 1)
    ensures IsOutdated(timestamp, now) && now <= later ==> IsOutdated(timestamp, later)
  {
  }

  /** The right a membership confers: 'rw' with management rights, else 'r'. */
  function RightFor(g: Group): (r: Right)
    ensures r == ReadWrite <==> g.hasManageRight
  {
    if g.hasManageRight then ReadWrite else Read
  }

  /** The ids of the memberships that pass the group-id test. */
  function GroupIdsIn(gs: seq<Group>): set<string>
  {
    set i | 0 <= i < |gs| && IsGroupId(gs[i].id) :: gs[i].id
  }

  /** The admin ACL entries made for newly created repositories. */
  function AdminGrants(ids: set<string>): (m: Acl)
    ensures m.Keys == ids
    ensures forall k :: k in m ==> m[k] == Read
  {
    map k | k in ids :: Read
  }

  /** The state threaded through the loop over the memberships. */
  datatype Progress = Progress(store: Store, acl: Acl)

  /** The loop of lines 116-128: each membership whose id passes the test is
      reconciled with its normalised name, and granted its right when the
      reconciliation reports the repository enabled; the others are skipped. */
  function ReconcileGroups(gs: seq<Group>, s: Store, dirExists: string -> bool, acl: Acl): (r: Progress)
    ensures r.store.repos.Keys == s.repos.Keys + GroupIdsIn(gs)
    ensures r.acl.Keys <= acl.Keys + GroupIdsIn(gs)
    decreases |gs|
  {
    if gs == [] then
      assert GroupIdsIn(gs) == {};
      Progress(s, acl)
    else
      var g := gs[0];
      GroupIdsInCons(gs);
      if IsGroupId(g.id) then
        var rec := UpdateRepo(s, dirExists, g.id, GroupNames.NormaliseName(g.name));
        ReconcileGroups(gs[1..], rec.store, dirExists, if rec.enabled then acl[g.id := RightFor(g)] else acl)
      else
        ReconcileGroups(gs[1..], s, dirExists, acl)
  }

  /** Repositories no passing membership names are left as they were. */
  lemma {:induction false} ReconcileGroupsKeepsOtherRepos(gs: seq<Group>, s: Store, dirExists: string -> bool, acl: Acl)
    ensures forall k :: k in s.repos && k !in GroupIdsIn(gs) ==>
      ReconcileGroups(gs, s, dirExists, acl).store.repos[k] == s.repos[k]
    decreases |gs|
  {
    if gs != [] {
      var g := gs[0];
      GroupIdsInCons(gs);
      if IsGroupId(g.id) {
        var rec := UpdateRepo(s, dirExists, g.id, GroupNames.NormaliseName(g.name));
        var acl' := if rec.enabled then acl[g.id := RightFor(g)] else acl;
        ReconcileGroupsKeepsOtherRepos(gs[1..], rec.store, dirExists, acl');
      } else {
        ReconcileGroupsKeepsOtherRepos(gs[1..], s, dirExists, acl);
      }
    }
  }

  /** ACL entries no passing membership names are kept. */
  lemma {:induction false} ReconcileGroupsKeepsOtherGrants(gs: seq<Group>, s: Store, dirExists: string -> bool, acl: Acl)
    ensures forall k :: k in acl && k !in GroupIdsIn(gs) ==>
      k in ReconcileGroups(gs, s, dirExists, acl).acl && ReconcileGroups(gs, s, dirExists, acl).acl[k] == acl[k]
    decreases |gs|
  {
    if gs != [] {
      var g := gs[0];
      GroupIdsInCons(gs);
      if IsGroupId(g.id) {
        var rec := UpdateRepo(s, dirExists, g.id, GroupNames.NormaliseName(g.name));
        var acl' := if rec.enabled then acl[g.id := RightFor(g)] else acl;
        ReconcileGroupsKeepsOtherGrants(gs[1..], rec.store, dirExists, acl');
      } else {
        ReconcileGroupsKeepsOtherGrants(gs[1..], s, dirExists, acl);
      }
    }
  }

  /** The admin user gains a 'r' entry for exactly the repositories the loop
      creates, and nothing else changes in its ACL. */
  lemma {:induction false} ReconcileGroupsAdminGrants(gs: seq<Group>, s: Store, dirExists: string -> bool, acl: Acl)
    ensures ReconcileGroups(gs, s, dirExists, acl).store.adminAcl
         == s.adminAcl + AdminGrants(GroupIdsIn(gs) - s.repos.Keys)
    decreases |gs|, 1
  {
    if gs == [] {
      AdminGrantsNone(s, GroupIdsIn(gs));
    } else if IsGroupId(gs[0].id) {
      AdminGrantsMatching(gs, s, dirExists, acl);
    } else {
      AdminGrantsSkipped(gs, s, dirExists, acl);
    }
  }

  /** The step of `ReconcileGroupsAdminGrants` for a membership that fails
      the test. */
  lemma {:induction false} AdminGrantsSkipped(gs: seq<Group>, s: Store, dirExists: string -> bool, acl: Acl)
    requires gs != [] && !IsGroupId(gs[0].id)
    ensures ReconcileGroups(gs, s, dirExists, acl).store.adminAcl
         == s.adminAcl + AdminGrants(GroupIdsIn(gs) - s.repos.Keys)
    decreases |gs|, 0
  {
    GroupIdsInCons(gs);
    ReconcileGroupsAdminGrants(gs[1..], s, dirExists, acl);
  }

  /** The step of `ReconcileGroupsAdminGrants` for a membership that passes
      the test. */
  lemma {:induction false} AdminGrantsMatching(gs: seq<Group>, s: Store, dirExists: string -> bool, acl: Acl)
    requires gs != [] && IsGroupId(gs[0].id)
    ensures ReconcileGroups(gs, s, dirExists, acl).store.adminAcl
         == s.adminAcl + AdminGrants(GroupIdsIn(gs) - s.repos.Keys)
    decreases |gs|, 0
  {
    var g := gs[0];
    var rec := UpdateRepo(s, dirExists, g.id, GroupNames.NormaliseName(g.name));
    var acl' := if rec.enabled then acl[g.id := RightFor(g)] else acl;
    GroupIdsInCons(gs);
    ReconcileGroupsAdminGrants(gs[1..], rec.store, dirExists, acl');
    AdminGrantsStep(s, rec.store, g.id, GroupIdsIn(gs[1..]));
  }

  lemma GroupIdsInCons(gs: seq<Group>)
    requires gs != []
    ensures GroupIdsIn(gs) == (if IsGroupId(gs[0].id) then {gs[0].id} else {}) + GroupIdsIn(gs[1..])
  {
    var rest := gs[1..];
    forall k | k in GroupIdsIn(gs)
      ensures k in (if IsGroupId(gs[0].id) then {gs[0].id} else {}) + GroupIdsIn(rest)
    {
      var i :| 0 <= i < |gs| && IsGroupId(gs[i].id) && gs[i].id == k;
      if i > 0 {
        assert rest[i - 1] == gs[i];
      }
    }
    forall k | k in GroupIdsIn(rest)
      ensures k in GroupIdsIn(gs)
    {
      var i :| 0 <= i < |rest| && IsGroupId(rest[i].id) && rest[i].id == k;
      assert gs[i + 1] == rest[i];
    }
    if IsGroupId(gs[0].id) {
      assert gs[0].id in GroupIdsIn(gs);
    }
  }

  /** The admin grants of one reconciliation step compose with those of the
      rest of the loop. */
  lemma AdminGrantsStep(s: Store, s': Store, id: string, later: set<string>)
    requires s'.repos.Keys == s.repos.Keys + {id}
    requires id !in s.repos ==> s'.adminAcl == s.adminAcl[id := Read]
    requires id in s.repos ==> s'.adminAcl == s.adminAcl
    ensures s'.adminAcl + AdminGrants(later - s'.repos.Keys)
         == s.adminAcl + AdminGrants(({id} + later) - s.repos.Keys)
  {
  }

  lemma AdminGrantsNone(s: Store, ids: set<string>)
    requires ids == {}
    ensures s.adminAcl + AdminGrants(ids - s.repos.Keys) == s.adminAcl
  {
    assert AdminGrants(ids - s.repos.Keys) == map[];
  }

  /** The session-refreshed flag stands for `AuthService::updateSessionUser`. */
  datatype Synced = Synced(user: User, store: Store, sessionRefreshed: bool)

  /** `updateUserObject` at time `now`. */
  function UpdateUserObject(dir: Directory, dirExists: string -> bool, now: int, u: User, s: Store): (r: Run<Synced>)
    ensures r.calls != [] <==> u.id != Credentials.AdminLogin && IsOutdated(LastUpdate(u), now)
    ensures r.calls != [] ==> r.calls == [LookupCall(u.id)]
    ensures r.outcome.Failed? <==> r.calls != [] && dir.lookup(u.id).LookupFault?
    ensures u.id == Credentials.AdminLogin ==>
      r.outcome == Ok(Synced(u.(displayName := Some(AdminDisplayName), email := Some(AdminEmail)), s, false))
    ensures u.id != Credentials.AdminLogin && r.outcome.Ok? ==>
      && r.outcome.value.user.id == u.id
      && HomeRepository in r.outcome.value.user.acl
      && r.outcome.value.user.acl[HomeRepository] == ReadWrite
      && r.outcome.value.sessionRefreshed
    ensures u.id != Credentials.AdminLogin && !IsOutdated(LastUpdate(u), now) ==>
      r.outcome == Ok(Synced(u.(acl := u.acl[HomeRepository := ReadWrite]), s, true))
    ensures r.calls != [] && r.outcome.Ok? ==>
      var p := dir.lookup(u.id).profile;
      var v := r.outcome.value;
      && v.user.displayName == Some(p.firstName + " " + p.lastName)
      && v.user.email == Some(p.email)
      && v.user.lastUpdate == Some(now)
      && v.user.acl.Keys <= {HomeRepository} + GroupIdsIn(GroupsOf(p))
      && v.store.repos.Keys == s.repos.Keys + GroupIdsIn(GroupsOf(p))
  {
    if u.id == Credentials.AdminLogin then
      Run(Ok(Synced(u.(displayName := Some(AdminDisplayName), email := Some(AdminEmail)), s, false)), [])
    else if !IsOutdated(LastUpdate(u), now) then
      Run(Ok(Synced(u.(acl := u.acl[HomeRepository := ReadWrite]), s, true)), [])
    else
      match dir.lookup(u.id)
      case LookupFault => Run(Failed(DirectoryUnavailable), [LookupCall(u.id)])
      case Found(p) =>
        var progress := ReconcileGroups(GroupsOf(p), s, dirExists, map[]);
        var user := u.(displayName := Some(p.firstName + " " + p.lastName),
                       email := Some(p.email),
                       lastUpdate := Some(now),
                       acl := progress.acl[HomeRepository := ReadWrite]);
        Run(Ok(Synced(user, progress.store, true)), [LookupCall(u.id)])
  }

  /** A membership that ends up in the ACL of a stale sync: its id passes the
      test and its repository's directory exists. */
  predicate Grants(g: Group, dirExists: string -> bool) {
    IsGroupId(g.id) && dirExists(MountPath(g.id))
  }

  /** Reference definition of the grants a membership list yields, read from
      the last membership backwards: each granting membership sets its id to
      its right, a later one overriding an earlier one. */
  function Granted(gs: seq<Group>, dirExists: string -> bool): Acl
    decreases |gs|
  {
    if gs == [] then map[]
    else
      var m := Granted(gs[..|gs| - 1], dirExists);
      var g := gs[|gs| - 1];
      if Grants(g, dirExists) then m[g.id := RightFor(g)] else m
  }

  /** The grants of a concatenation are those of the second part laid over
      those of the first. */
  lemma {:induction false} GrantedAppend(a: seq<Group>, b: seq<Group>, dirExists: string -> bool)
    ensures Granted(a + b, dirExists) == Granted(a, dirExists) + Granted(b, dirExists)
    decreases |b|
  {
    if b == [] {
      assert a + b == a;
      assert Granted(a, dirExists) + map[] == Granted(a, dirExists);
    } else {
      var b' := b[..|b| - 1];
      assert (a + b)[..|a + b| - 1] == a + b';
      assert (a + b)[|a + b| - 1] == b[|b| - 1];
      GrantedAppend(a, b', dirExists);
    }
  }

  lemma GrantedSingle(g: Group, dirExists: string -> bool)
    ensures Granted([g], dirExists) == if Grants(g, dirExists) then map[g.id := RightFor(g)] else map[]
  {
    assert [g][..0] == [];
  }

  /** The loop keeps every group repository at its derived path. */
  lemma {:induction false} ReconcileGroupsKeepsGroupReposMounted(gs: seq<Group>, s: Store, dirExists: string -> bool, acl: Acl)
    requires GroupReposMounted(s)
    ensures GroupReposMounted(ReconcileGroups(gs, s, dirExists, acl).store)
    decreases |gs|
  {
    if gs != [] {
      var g := gs[0];
      if IsGroupId(g.id) {
        var rec := UpdateRepo(s, dirExists, g.id, GroupNames.NormaliseName(g.name));
        var acl' := if rec.enabled then acl[g.id := RightFor(g)] else acl;
        UpdateRepoKeepsGroupReposMounted(s, dirExists, g.id, GroupNames.NormaliseName(g.name));
        ReconcileGroupsKeepsGroupReposMounted(gs[1..], rec.store, dirExists, acl');
      } else {
        ReconcileGroupsKeepsGroupReposMounted(gs[1..], s, dirExists, acl);
      }
    }
  }

  /** On a store whose group repositories sit at their derived paths, the
      loop adds exactly the reference grants to the ACL it starts from. */
  lemma {:induction false} ReconcileGroupsGrants(gs: seq<Group>, s: Store, dirExists: string -> bool, acl: Acl)
    requires GroupReposMounted(s)
    ensures ReconcileGroups(gs, s, dirExists, acl).acl == acl + Granted(gs, dirExists)
    decreases |gs|, 1
  {
    if gs == [] {
      assert acl + map[] == acl;
    } else if IsGroupId(gs[0].id) {
      GrantsMatching(gs, s, dirExists, acl);
    } else {
      GrantsSkipped(gs, s, dirExists, acl);
    }
  }

  /** Splitting off the first membership of the reference grants. */
  lemma GrantedCons(gs: seq<Group>, dirExists: string -> bool, acl: Acl, acl': Acl)
    requires gs != []
    requires acl' == acl + Granted([gs[0]], dirExists)
    ensures acl' + Granted(gs[1..], dirExists) == acl + Granted(gs, dirExists)
  {
    assert gs == [gs[0]] + gs[1..];
    GrantedAppend([gs[0]], gs[1..], dirExists);
  }

  /** One granting step, when `enabled` is the existence of the derived
      path, is overlaying the membership's reference grants. */
  lemma GrantedOverlay(g: Group, dirExists: string -> bool, enabled: bool, acl: Acl)
    requires IsGroupId(g.id) && enabled == dirExists(MountPath(g.id))
    ensures (if enabled then acl[g.id := RightFor(g)] else acl) == acl + Granted([g], dirExists)
  {
    GrantedSingle(g, dirExists);
  }

  /** Induction step of `ReconcileGroupsGrants` for a membership that
      passes the test. */
  lemma {:induction false} GrantsMatching(gs: seq<Group>, s: Store, dirExists: string -> bool, acl: Acl)
    requires GroupReposMounted(s) && gs != [] && IsGroupId(gs[0].id)
    ensures ReconcileGroups(gs, s, dirExists, acl).acl == acl + Granted(gs, dirExists)
    decreases |gs|, 0
  {
    var g := gs[0];
    var title := GroupNames.NormaliseName(g.name);
    var rec := UpdateRepo(s, dirExists, g.id, title);
    UpdateRepoKeepsGroupReposMounted(s, dirExists, g.id, title);
    var acl' := if rec.enabled then acl[g.id := RightFor(g)] else acl;
    GrantedOverlay(g, dirExists, rec.enabled, acl);
    ReconcileGroupsGrants(gs[1..], rec.store, dirExists, acl');
    GrantedCons(gs, dirExists, acl, acl');
  }

  /** Induction step of `ReconcileGroupsGrants` for a membership that fails
      the test. */
  lemma {:induction false} GrantsSkipped(gs: seq<Group>, s: Store, dirExists: string -> bool, acl: Acl)
    requires GroupReposMounted(s) && gs != [] && !IsGroupId(gs[0].id)
    ensures ReconcileGroups(gs, s, dirExists, acl).acl == acl + Granted(gs, dirExists)
    decreases |gs|, 0
  {
    GrantedSingle(gs[0], dirExists);
    assert acl == acl + Granted([gs[0]], dirExists);
    ReconcileGroupsGrants(gs[1..], s, dirExists, acl);
    GrantedCons(gs, dirExists, acl, acl);
  }

  /** An id is granted exactly when some membership with that id grants. */
  lemma {:induction false} GrantedKeys(gs: seq<Group>, dirExists: string -> bool)
    ensures forall k ::
      k in Granted(gs, dirExists) <==> (exists i :: 0 <= i < |gs| && gs[i].id == k && Grants(gs[i], dirExists))
    decreases |gs|
  {
    if gs != [] {
      var init := gs[..|gs| - 1];
      GrantedKeys(init, dirExists);
      assert forall i :: 0 <= i < |init| ==> init[i] == gs[i];
    }
  }

  /** The right granted for an id is that of the last granting membership
      with that id. */
  lemma {:induction false} GrantedLastWins(gs: seq<Group>, dirExists: string -> bool)
    ensures forall k :: k in Granted(gs, dirExists) ==>
      exists i :: 0 <= i < |gs| && gs[i].id == k && Grants(gs[i], dirExists)
        && Granted(gs, dirExists)[k] == RightFor(gs[i])
        && forall j :: i < j < |gs| ==> !(gs[j].id == k && Grants(gs[j], dirExists))
    decreases |gs|, 1
  {
    if gs != [] {
      var last := gs[|gs| - 1];
      forall k | k in Granted(gs, dirExists)
        ensures exists i :: (0 <= i < |gs| && gs[i].id == k && Grants(gs[i], dirExists)
          && Granted(gs, dirExists)[k] == RightFor(gs[i])
          && forall j :: i < j < |gs| ==> !(gs[j].id == k && Grants(gs[j], dirExists)))
      {
        if last.id == k && Grants(last, dirExists) {
          assert gs[|gs| - 1] == last;
        } else {
          GrantedLastWinsEarlier(gs, dirExists, k);
        }
      }
    }
  }

  /** The step of `GrantedLastWins` for an id the last membership does not
      grant: the right comes from the earlier memberships. */
  lemma {:induction false} GrantedLastWinsEarlier(gs: seq<Group>, dirExists: string -> bool, k: string)
    requires gs != [] && k in Granted(gs, dirExists)
    requires !(gs[|gs| - 1].id == k && Grants(gs[|gs| - 1], dirExists))
    ensures exists i :: (0 <= i < |gs| && gs[i].id == k && Grants(gs[i], dirExists)
      && Granted(gs, dirExists)[k] == RightFor(gs[i])
      && forall j :: i < j < |gs| ==> !(gs[j].id == k && Grants(gs[j], dirExists)))
    decreases |gs|, 0
  {
    var init := gs[..|gs| - 1];
    GrantedDropLast(gs, dirExists, k);
    GrantedLastWins(init, dirExists);
    var i :| 0 <= i < |init| && init[i].id == k && Grants(init[i], dirExists)
      && Granted(init, dirExists)[k] == RightFor(init[i])
      && forall j :: i < j < |init| ==> !(init[j].id == k && Grants(init[j], dirExists));
    assert gs[i] == init[i];
    forall j | i < j < |gs|
      ensures !(gs[j].id == k && Grants(gs[j], dirExists))
    {
      if j < |init| {
        assert gs[j] == init[j];
      }
    }
  }

  /** Dropping a last membership that does not grant `k` leaves the grant of
      `k` as it was. */
  lemma {:induction false} GrantedDropLast(gs: seq<Group>, dirExists: string -> bool, k: string)
    requires gs != [] && k in Granted(gs, dirExists)
    requires !(gs[|gs| - 1].id == k && Grants(gs[|gs| - 1], dirExists))
    ensures k in Granted(gs[..|gs| - 1], dirExists)
    ensures Granted(gs, dirExists)[k] == Granted(gs[..|gs| - 1], dirExists)[k]
  {
    var init, last := gs[..|gs| - 1], gs[|gs| - 1];
    var m := Granted(init, dirExists);
    assert Granted(gs, dirExists) == if Grants(last, dirExists) then m[last.id := RightFor(last)] else m;
  }

  /** `j` is the last membership in `gs` carrying its id. */
  predicate LastWithId(gs: seq<Group>, j: int) {
    0 <= j < |gs| && forall l :: j < l < |gs| ==> gs[l].id != gs[j].id
  }

  /** A repository record as reconciliation leaves it for group `id` with
      title `title`: at the derived path, with the alias address, and with
      the display title matching its `enabled` flag. */
  predicate RepoReconciled(r: Repo, id: string, title: string) {
    && r.path == r.optionPath == MountPath(id)
    && r.email == Some(EmailAlias.Alias(title, id))
    && r.display == DisplayTitle(title, r.enabled)
  }

  /** The first membership's id is not met again when it is the last one
      with that id. */
  lemma FirstNotLater(gs: seq<Group>)
    requires LastWithId(gs, 0)
    ensures gs[0].id !in GroupIdsIn(gs[1..])
  {
    var rest := gs[1..];
    forall i | 0 <= i < |rest|
      ensures rest[i].id != gs[0].id
    {
      assert rest[i] == gs[i + 1];
    }
  }

  /** After the loop, the repository of the last membership with a passing
      id is reconciled with that membership's normalised name. */
  lemma {:induction false} ReconcileGroupsRecordAt(gs: seq<Group>, s: Store, dirExists: string -> bool, acl: Acl, j: int)
    requires LastWithId(gs, j) && IsGroupId(gs[j].id)
    ensures var st := ReconcileGroups(gs, s, dirExists, acl).store;
      && gs[j].id in st.repos
      && RepoReconciled(st.repos[gs[j].id], gs[j].id, GroupNames.NormaliseName(gs[j].name))
    decreases |gs|, 1
  {
    if j == 0 {
      RecordAtFirst(gs, s, dirExists, acl);
    } else {
      RecordAtLater(gs, s, dirExists, acl, j);
    }
  }

  /** The case of `ReconcileGroupsRecordAt` where the membership is the
      first: no later step touches its repository. */
  lemma {:induction false} RecordAtFirst(gs: seq<Group>, s: Store, dirExists: string -> bool, acl: Acl)
    requires LastWithId(gs, 0) && IsGroupId(gs[0].id)
    ensures var st := ReconcileGroups(gs, s, dirExists, acl).store;
      && gs[0].id in st.repos
      && RepoReconciled(st.repos[gs[0].id], gs[0].id, GroupNames.NormaliseName(gs[0].name))
  {
    var g := gs[0];
    var rec := UpdateRepo(s, dirExists, g.id, GroupNames.NormaliseName(g.name));
    var acl' := if rec.enabled then acl[g.id := RightFor(g)] else acl;
    FirstNotLater(gs);
    ReconcileGroupsKeepsOtherRepos(gs[1..], rec.store, dirExists, acl');
  }

  /** The case of `ReconcileGroupsRecordAt` where the membership comes
      later: it is the last with its id in the rest of the loop. */
  lemma {:induction false} RecordAtLater(gs: seq<Group>, s: Store, dirExists: string -> bool, acl: Acl, j: int)
    requires LastWithId(gs, j) && IsGroupId(gs[j].id) && j > 0
    ensures var st := ReconcileGroups(gs, s, dirExists, acl).store;
      && gs[j].id in st.repos
      && RepoReconciled(st.repos[gs[j].id], gs[j].id, GroupNames.NormaliseName(gs[j].name))
    decreases |gs|, 0
  {
    var g := gs[0];
    LastWithIdTail(gs, j);
    if IsGroupId(g.id) {
      var rec := UpdateRepo(s, dirExists, g.id, GroupNames.NormaliseName(g.name));
      var acl' := if rec.enabled then acl[g.id := RightFor(g)] else acl;
      assert ReconcileGroups(gs, s, dirExists, acl) == ReconcileGroups(gs[1..], rec.store, dirExists, acl');
      ReconcileGroupsRecordAt(gs[1..], rec.store, dirExists, acl', j - 1);
    } else {
      assert ReconcileGroups(gs, s, dirExists, acl) == ReconcileGroups(gs[1..], s, dirExists, acl);
      ReconcileGroupsRecordAt(gs[1..], s, dirExists, acl, j - 1);
    }
  }

  /** A membership after the first that is last with its id stays so in the
      rest of the list. */
  lemma LastWithIdTail(gs: seq<Group>, j: int)
    requires LastWithId(gs, j) && j > 0
    ensures LastWithId(gs[1..], j - 1) && gs[1..][j - 1] == gs[j]
  {
    var rest := gs[1..];
    forall l | j - 1 < l < |rest|
      ensures rest[l].id != rest[j - 1].id
    {
      assert rest[l] == gs[l + 1];
    }
  }

  /** On a store whose group repositories sit at their derived paths, every
      repository the loop reconciles is enabled exactly when its `/mnt/<id>`
      directory exists. */
  lemma {:induction false} ReconcileGroupsEnabled(gs: seq<Group>, s: Store, dirExists: string -> bool, acl: Acl)
    requires GroupReposMounted(s)
    ensures var st := ReconcileGroups(gs, s, dirExists, acl).store;
      forall k :: k in GroupIdsIn(gs) ==> k in st.repos && st.repos[k].enabled == dirExists(MountPath(k))
    decreases |gs|, 1
  {
    if gs != [] {
      if IsGroupId(gs[0].id) {
        EnabledMatching(gs, s, dirExists, acl);
      } else {
        GroupIdsInCons(gs);
        ReconcileGroupsEnabled(gs[1..], s, dirExists, acl);
      }
    }
  }

  /** The step of `ReconcileGroupsEnabled` for a membership that passes the
      test. */
  lemma {:induction false} EnabledMatching(gs: seq<Group>, s: Store, dirExists: string -> bool, acl: Acl)
    requires GroupReposMounted(s) && gs != [] && IsGroupId(gs[0].id)
    ensures var st := ReconcileGroups(gs, s, dirExists, acl).store;
      forall k :: k in GroupIdsIn(gs) ==> k in st.repos && st.repos[k].enabled == dirExists(MountPath(k))
    decreases |gs|, 0
  {
    var g := gs[0];
    var title := GroupNames.NormaliseName(g.name);
    var rec := UpdateRepo(s, dirExists, g.id, title);
    var acl' := if rec.enabled then acl[g.id := RightFor(g)] else acl;
    GroupIdsInCons(gs);
    UpdateRepoKeepsGroupReposMounted(s, dirExists, g.id, title);
    ReconcileGroupsEnabled(gs[1..], rec.store, dirExists, acl');
    ReconcileGroupsKeepsOtherRepos(gs[1..], rec.store, dirExists, acl');
  }

  /** A stale sync reconciles the repository of every passing membership id
      with the normalised name of the last membership carrying that id; on a
      store whose group repositories sit at their derived paths, each of
      them is enabled exactly when its directory exists. */
  lemma StaleSyncReconcilesRepos(dir: Directory, dirExists: string -> bool, now: int, u: User, s: Store)
    requires u.id != Credentials.AdminLogin && IsOutdated(LastUpdate(u), now)
    requires dir.lookup(u.id).Found?
    ensures var r := UpdateUserObject(dir, dirExists, now, u, s);
      var gs := GroupsOf(dir.lookup(u.id).profile);
      && r.outcome.Ok?
      && (forall j :: LastWithId(gs, j) && IsGroupId(gs[j].id) ==>
            && gs[j].id in r.outcome.value.store.repos
            && RepoReconciled(r.outcome.value.store.repos[gs[j].id], gs[j].id, GroupNames.NormaliseName(gs[j].name)))
      && (GroupReposMounted(s) ==>
            forall k :: k in GroupIdsIn(gs) ==>
              k in r.outcome.value.store.repos && r.outcome.value.store.repos[k].enabled == dirExists(MountPath(k)))
  {
    var gs := GroupsOf(dir.lookup(u.id).profile);
    forall j | LastWithId(gs, j) && IsGroupId(gs[j].id)
      ensures var st := ReconcileGroups(gs, s, dirExists, map[]).store;
        gs[j].id in st.repos && RepoReconciled(st.repos[gs[j].id], gs[j].id, GroupNames.NormaliseName(gs[j].name))
    {
      ReconcileGroupsRecordAt(gs, s, dirExists, map[], j);
    }
    if GroupReposMounted(s) {
      ReconcileGroupsEnabled(gs, s, dirExists, map[]);
    }
  }

  /** A stale sync touches nothing it does not name: repositories no passing
      membership names keep their records, and the admin user gains a 'r'
      entry for exactly the group repositories the sync creates. */
  lemma StaleSyncFrame(dir: Directory, dirExists: string -> bool, now: int, u: User, s: Store)
    requires u.id != Credentials.AdminLogin && IsOutdated(LastUpdate(u), now)
    requires dir.lookup(u.id).Found?
    ensures var r := UpdateUserObject(dir, dirExists, now, u, s);
      var gs := GroupsOf(dir.lookup(u.id).profile);
      && r.outcome.Ok?
      && (forall k :: k in s.repos && k !in GroupIdsIn(gs) ==>
            k in r.outcome.value.store.repos && r.outcome.value.store.repos[k] == s.repos[k])
      && r.outcome.value.store.adminAcl == s.adminAcl + AdminGrants(GroupIdsIn(gs) - s.repos.Keys)
  {
    var gs := GroupsOf(dir.lookup(u.id).profile);
    ReconcileGroupsKeepsOtherRepos(gs, s, dirExists, map[]);
    ReconcileGroupsAdminGrants(gs, s, dirExists, map[]);
  }

  /** The `_gouw_` alternative can never match in a group name produced by
      the name normaliser, because that step has already turned every `_`
      into a space: only the punctuation class is ever replaced on the
      path from profile sync. */
  lemma GouwTokenUnreachableFromSync(name: string)
    ensures forall i :: 0 <= i < |GroupNames.NormaliseName(name)| ==>
      EmailAlias.TokenLength(GroupNames.NormaliseName(name)[i..]) != 6
  {
    var n := GroupNames.NormaliseName(name);
    forall i | 0 <= i < |n|
      ensures EmailAlias.TokenLength(n[i..]) != 6
    {
      assert n[i..][0] == n[i];
    }
  }

  lemma HomeIsNoGroup()
    ensures !IsGroupId(HomeRepository)
  {
    IsGroupIdIff(HomeRepository);
  }

  /** A stale sync rebuilds the ACL from scratch: the home repository with
      'rw' plus the reference grants of the fetched memberships, so a
      membership dropped upstream loses its entry. */
  lemma StaleSyncRebuildsAcl(dir: Directory, dirExists: string -> bool, now: int, u: User, s: Store)
    requires u.id != Credentials.AdminLogin && IsOutdated(LastUpdate(u), now)
    requires dir.lookup(u.id).Found?
    requires GroupReposMounted(s)
    ensures var r := UpdateUserObject(dir, dirExists, now, u, s);
      var gs := GroupsOf(dir.lookup(u.id).profile);
      && r.outcome.Ok?
      && HomeRepository !in Granted(gs, dirExists)
      && r.outcome.value.user.acl == Granted(gs, dirExists)[HomeRepository := ReadWrite]
      && GroupReposMounted(r.outcome.value.store)
  {
    var gs := GroupsOf(dir.lookup(u.id).profile);
    ReconcileGroupsGrants(gs, s, dirExists, map[]);
    ReconcileGroupsKeepsGroupReposMounted(gs, s, dirExists, map[]);
    GrantedKeys(gs, dirExists);
    HomeIsNoGroup();
    assert map[] + Granted(gs, dirExists) == Granted(gs, dirExists);
  }

  /** A second sync at the same instant finds the profile fresh: no remote
      call, and the user and store come back unchanged. */
  lemma SyncStableWithinWindow(dir: Directory, dir': Directory, dirExists: string -> bool, dirExists': string -> bool,
                               now: int, u: User, s: Store)
    requires u.id != Credentials.AdminLogin
    requires UpdateUserObject(dir, dirExists, now, u, s).outcome.Ok?
    ensures var v := UpdateUserObject(dir, dirExists, now, u, s).outcome.value;
      UpdateUserObject(dir', dirExists', now, v.user, v.store) == Run(Ok(Synced(v.user, v.store, true)), [])
  {
    var v := UpdateUserObject(dir, dirExists, now, u, s).outcome.value;
    assert v.user.acl[HomeRepository := ReadWrite] == v.user.acl;
  }
}

=== FILE: repositories.dfy ===
/** Repository reconciliation (`updateRepo`, SgvAuthDriver.php lines
    138-206): one storage repository per remote group, created on first
    sight and rewritten on every pass. */
module Repositories {
  import opened Outcomes
  import opened Patterns
  import EmailAlias

  /** An ACL right: 'r' or 'rw'. */
  datatype Right = Read | ReadWrite

  /** An ACL: repository id to right. */
  type Acl = map<string, Right>

  const MountRoot: string := "/mnt/"

  const PathNotFoundMarker: string := "[path not found] "

  /** The storage driver of every repository made here ('fs', filesystem). */
  const FilesystemDriver: string := "fs"

  /** The `META_SOURCES` option. Its contents are not modelled: a new
      repository gets the driver's default (git, lucene indexing with content
      indexing, storage observation every 60 seconds); an existing one keeps
      whatever it has. */
  datatype MetaSources = DefaultMetaSources | OtherMetaSources(config: string)

  /** A repository record; `optionPath` is `options["PATH"]` and `email` is
      `options["EMAIL"]`. */
  datatype Repo = Repo(
    id: string,
    uuid: string,
    slug: string,
    accessType: string,
    display: string,
    path: string,
    enabled: bool,
    create: bool,
    isTemplate: bool,
    inferOptionsFromParent: bool,
    optionPath: string,
    metaSources: MetaSources,
    email: Option<string>)

  /** The repository store, keyed by id, and the ACL of the `admin` user. */
  datatype Store = Store(repos: map<string, Repo>, adminAcl: Acl)

  /** The storage path derived from a group id (storage encoding is taken as
      the identity). */
  function MountPath(id: string): (p: string)
    ensures |p| == |MountRoot| + |id|
    ensures p[..|MountRoot|] == MountRoot && p[|MountRoot|..] == id
  {
    MountRoot + id
  }

  /** Every stored repository whose id passes the group-id test sits at the
      path derived from its id. Other repositories (the home repository,
      settings repositories) may be anywhere: only group ids ever reach
      reconciliation from profile sync. */
  predicate GroupReposMounted(s: Store) {
    forall id :: id in s.repos && IsGroupId(id) ==> s.repos[id].path == MountPath(id)
  }

  /** The record built for a group seen for the first time (lines 147-172),
      before the reconciliation steps common to both cases. */
  function NewRepo(id: string, title: string): (r: Repo)
    ensures r.id == r.uuid == r.slug == id
    ensures r.path == r.optionPath == MountPath(id)
    ensures r.display == title && r.accessType == FilesystemDriver
    ensures !r.create && !r.isTemplate && !r.inferOptionsFromParent
    ensures r.metaSources == DefaultMetaSources
  {
    Repo(id := id, uuid := id, slug := id, accessType := FilesystemDriver,
         display := title, path := MountPath(id), enabled := true,
         create := false, isTemplate := false, inferOptionsFromParent := false,
         optionPath := MountPath(id), metaSources := DefaultMetaSources, email := None)
  }

  /** The display title: the plain title when the storage directory exists,
      marked otherwise. */
  function DisplayTitle(title: string, enabled: bool): (d: string)
    ensures enabled ==> d == title
    ensures !enabled ==> (|d| == |PathNotFoundMarker| + |title|
      && d[..|PathNotFoundMarker|] == PathNotFoundMarker && d[|PathNotFoundMarker|..] == title)
  {
    if enabled then title else PathNotFoundMarker + title
  }

  /** The outcome of one reconciliation: the new store and the `enabled`
      value returned to the caller. */
  datatype Reconciled = Reconciled(store: Store, enabled: bool)

  /** `updateRepo(id, title)`. `dirExists` is the filesystem's `is_dir`.
      The existence test uses the path the repository had BEFORE the path is
      re-derived (line 182 runs before line 198), so a stored repository with
      some other path is judged by that path on this one pass. */
  function UpdateRepo(s: Store, dirExists: string -> bool, id: string, title: string): (r: Reconciled)
    ensures id in r.store.repos
    ensures r.store.repos == s.repos[id := r.store.repos[id]]
    ensures r.store.repos[id].path == r.store.repos[id].optionPath == MountPath(id)
    ensures r.enabled == r.store.repos[id].enabled
    ensures r.enabled == dirExists(if id in s.repos then s.repos[id].path else MountPath(id))
    ensures r.store.repos[id].display == DisplayTitle(title, r.enabled)
    ensures r.store.repos[id].email == Some(EmailAlias.Alias(title, id))
    ensures r.store.adminAcl == if id in s.repos then s.adminAcl else s.adminAcl[id := Read]
  {
    var created := id !in s.repos;
    var base := if created then NewRepo(id, title) else s.repos[id];
    var adminAcl := if created then s.adminAcl[id := Read] else s.adminAcl;
    var enabled := dirExists(base.path);
    var repo := base.(enabled := enabled,
                      display := DisplayTitle(title, enabled),
                      email := Some(EmailAlias.Alias(title, id)),
                      path := MountPath(id),
                      optionPath := MountPath(id));
    Reconciled(Store(s.repos[id := repo], adminAcl), enabled)
  }

  /** The fields reconciliation does not derive: a new repository has those
      of `NewRepo` (default META_SOURCES among them), an existing one keeps
      its own. */
  lemma UpdateRepoOtherFields(s: Store, dirExists: string -> bool, id: string, title: string)
    ensures var r := UpdateRepo(s, dirExists, id, title);
      var p := r.store.repos[id];
      var base := if id in s.repos then s.repos[id] else NewRepo(id, title);
      p == base.(enabled := p.enabled, display := p.display, email := p.email,
                 path := MountPath(id), optionPath := MountPath(id))
  {
  }

  /** Reconciliation keeps every group repository at its derived path, and
      on such a store `enabled` for a group id is the existence of that path. */
  lemma UpdateRepoKeepsGroupReposMounted(s: Store, dirExists: string -> bool, id: string, title: string)
    requires GroupReposMounted(s)
    ensures GroupReposMounted(UpdateRepo(s, dirExists, id, title).store)
    ensures IsGroupId(id) ==> UpdateRepo(s, dirExists, id, title).enabled == dirExists(MountPath(id))
  {
  }

  /** Reconciling the same group twice with the same title and filesystem
      changes nothing the second time, once the stored path (if any) is the
      derived one. */
  lemma UpdateRepoIdempotent(s: Store, dirExists: string -> bool, id: string, title: string)
    requires id in s.repos ==> s.repos[id].path == MountPath(id)
    ensures UpdateRepo(UpdateRepo(s, dirExists, id, title).store, dirExists, id, title)
         == UpdateRepo(s, dirExists, id, title)
  {
    var r1 := UpdateRepo(s, dirExists, id, title);
    AlreadyReconciled(r1.store, dirExists, id, title);
  }

  /** A store that already holds the reconciled record for `id` is left as
      it is, and the stored `enabled` is returned. */
  lemma AlreadyReconciled(s: Store, dirExists: string -> bool, id: string, title: string)
    requires id in s.repos
    requires s.repos[id].path == s.repos[id].optionPath == MountPath(id)
    requires s.repos[id].enabled == dirExists(MountPath(id))
    requires s.repos[id].display == DisplayTitle(title, s.repos[id].enabled)
    requires s.repos[id].email == Some(EmailAlias.Alias(title, id))
    ensures UpdateRepo(s, dirExists, id, title) == Reconciled(s, s.repos[id].enabled)
  {
    var p := s.repos[id];
    var q := p.(enabled := p.enabled, display := p.display, email := p.email,
                path := MountPath(id), optionPath := MountPath(id));
    assert q == p;
    assert s.repos[id := q] == s.repos;
  }

  /** Whatever the starting store, the second pass reaches the fixed point. */
  lemma UpdateRepoSettles(s: Store, dirExists: string -> bool, id: string, title: string)
    ensures var s1 := UpdateRepo(s, dirExists, id, title).store;
      UpdateRepo(UpdateRepo(s1, dirExists, id, title).store, dirExists, id, title)
        == UpdateRepo(s1, dirExists, id, title)
  {
    UpdateRepoIdempotent(UpdateRepo(s, dirExists, id, title).store, dirExists, id, title);
  }

  /** A stored repository whose path is not the derived one: the first pass
      reports the old path's existence, the second the derived path's. */
  lemma StoredPathDecidesFirstPass(s: Store, dirExists: string -> bool, id: string, title: string)
    requires id in s.repos && s.repos[id].path != MountPath(id)
    requires dirExists(s.repos[id].path) && !dirExists(MountPath(id))
    ensures UpdateRepo(s, dirExists, id, title).enabled
    ensures !UpdateRepo(UpdateRepo(s, dirExists, id, title).store, dirExists, id, title).enabled
  {
  }

  /** A display title never carries more than one marker, whatever the
      stored display was: it is the title, or the marker and the title. */
  lemma DisplayHasAtMostOneMarker(s: Store, dirExists: string -> bool, id: string, title: string)
    ensures var d := UpdateRepo(s, dirExists, id, title).store.repos[id].display;
      d == title || d == PathNotFoundMarker + title
  {
  }
}
